=== FILE: README.md ===
# Remote image engine: a Dafny model

This project models the image engine that a container tool uses when it talks to a
remote container service (`pkg/domain/infra/tunnel/images.go`). Most of that engine's
methods forward one request to the remote bindings. The model covers the methods that
decide something themselves:

- Delete folds the per-image removal records into a report of deleted ids and untagged names.
- Tag and Untag split each tag string into a tag and a repository, then issue one binding call each.
- List, History, Prune and Inspect project binding replies onto report types.
- Load and Import choose what the binding reads from.
- Save runs a small state machine over the output format and the filesystem.

Collaborators the engine cannot see are inputs to the model, never implementations:

- Each remote binding (`Remove`, `Tag`, `Untag`, `GetImage`, `Load`, `Import`, `List`,
  `History`, `Prune`) is a function from its arguments to its reply. When one operation calls
  a binding several times, the function also takes the number of the call. A daemon may answer
  the same request differently the second time, and the call number allows for that.
- The image-reference parser is a function from a string to either an error or a `ParsedRef`.
  A `ParsedRef` has an optional tag (the reference is Tagged) and an optional name (it is Named).
- The structural deep copy is a function from a wire value to the value it leaves in its
  destination, together with the error it returned.
- The filesystem Save sees is a map from path to {regular file, directory, other node}. A path
  that is not in the map does not exist. Every other step that can fail (temp-file creation,
  create, export, close, reopen, a stat failure other than "not found", mkdir, untar, removal)
  gets its outcome from a `World` record. Each of these steps runs at most once per call.
- Load and Import open their source through an abstract opener that returns nil or an error.

Every operation is a pure function. It returns its result, or the error Go would return.
The operations that issue one binding call per input element or touch the filesystem
(Delete, Tag, Untag, Inspect, Load, Import, Save) also return the ordered trace of binding
calls or filesystem actions they issued. List, History and Prune make a single binding call
and return only their result. Save can also end in a panic (see Findings). The contracts relate that trace and result to the inputs. They
state that calls happen in input order, that nothing is sent after the first error, that the
reports are concatenations or index-aligned projections of the replies, which branch Save
takes, and which cleanup happens on which exit path.

Files: `outcomes.dfy` (Option, Error, Result, Run), `messages.dfy` (error texts and `%q`),
`effects.dfy` (trace events, open-handle accounting), `delete.dfy`, `tag.dfy`,
`projections.dfy`, `transfer.dfy`, `save.dfy`.

Behaviours of the code that a caller might not expect, all modelled as written:

- Save returns the close error even when the export also failed (`images.go:214-220`).
- Import never closes the file it opens (`images.go:183-188`). `ImageTransfer.Import` states
  that the handle is left open, while Load closes its file (`images.go:170`).
- The empty-repository error of Tag and Untag quotes `nameOrId`, not the offending tag string
  (`images.go:119`, `144`).
- A removal record with both a `Deleted` and an `Untagged` entry contributes to both lists
  (`images.go:31-37`).
- Save discards the error of the deferred removal of its temporary archive (`images.go:205`),
  so the archive is gone afterwards only when that removal succeeds.

## Model

| member | source | states |
|---|---|---|
| `Messages.QuoteRoundTrip` | pkg/domain/infra/tunnel/images.go:119 | The `%q` quoting used in the engine's own errors loses nothing: unquoting the quoted text gives back the original string |
| `Messages.InvalidNameMessageNamesInput` | pkg/domain/infra/tunnel/images.go:119 | The empty-repository error reads `invalid image name ` followed by a quoting that reads back as exactly `nameOrId` |
| `Messages.RegularFileMessageNamesPath` | pkg/domain/infra/tunnel/images.go:234 | The regular-file error is the quoted output path followed by ` already exists as a regular file`, and the quoted part reads back as exactly the path |
| `ImageDelete.Absorb` | pkg/domain/infra/tunnel/images.go:30-38 | Folding records one at a time into the running report extends `Deleted` by every record's `Deleted` value in order, and `Untagged` likewise |
| `ImageDelete.FirstFailure` | pkg/domain/infra/tunnel/images.go:25-29 | Returns the least input index, at or after the start, whose removal fails; all earlier removals succeed; returns none exactly when every removal succeeds |
| `ImageDelete.DeleteFrom` | pkg/domain/infra/tunnel/images.go:25-39 | From any loop position: inputs are sent in order up to and including the first failing one; with no failure the report is extended by all returned values in input order; with one, that call's error is returned and the report is dropped |
| `ImageDelete.Delete` | pkg/domain/infra/tunnel/images.go:22-41 | The same, starting from an empty report |
| `ImageDelete.DeleteConcatenatesInInputOrder` | pkg/domain/infra/tunnel/images.go:25-40 | When no removal fails, every input is sent once in order, and `Deleted`/`Untagged` are the concatenations of the records' values over the inputs in order |
| `ImageDelete.DeleteStopsAtFirstError` | pkg/domain/infra/tunnel/images.go:26-29 | If input k is the first whose removal fails, Delete returns that error with no report, and exactly inputs 0..k are sent |
| `ImageDelete.RecordContributions` | pkg/domain/infra/tunnel/images.go:30-38 | A record with neither key adds nothing; a record with both keys adds to both lists |
| `ImageTag.FirstFailure` | pkg/domain/infra/tunnel/images.go:104-124 | Returns the least element index, at or after the start, that fails to prepare or whose call fails; all earlier elements go through |
| `ImageTag.RetagFrom` | pkg/domain/infra/tunnel/images.go:104-125 | From any loop position: the calls are the prepared calls of the elements in order. With no failure every element is sent and nil is returned. Otherwise the first failure's error is returned, and the failing element is sent only when the binding is what failed |
| `ImageTag.Tag` | pkg/domain/infra/tunnel/images.go:103-126 | Tag behaves as the loop above, and every call is a Tag call on `nameOrId` |
| `ImageTag.Untag` | pkg/domain/infra/tunnel/images.go:128-151 | Untag behaves as the loop above, and every call is an Untag call on `nameOrId` |
| `ImageTag.OneCallPerElement` | pkg/domain/infra/tunnel/images.go:104-125 | When every element parses with a non-empty repository and every call succeeds, exactly one call `(nameOrId, tag or "", repo)` is issued per element, in order, and nil is returned |
| `ImageTag.NoTagsNoCalls` | pkg/domain/infra/tunnel/images.go:129-150 | An empty tag list issues no call and returns nil |
| `ImageTag.StopsAtFirstFailure` | pkg/domain/infra/tunnel/images.go:108-123 | On the first failing element k: a parse error or an empty repository returns with only elements before k sent (the latter quoting `nameOrId`); a binding error returns after element k's call; no later element is sent |
| `ImageProjections.CopyAll` | pkg/domain/infra/tunnel/images.go:50-57 | The copy succeeds exactly when every row copies; it then returns one summary per row, index-aligned. Otherwise it returns the error of the first failing copy |
| `ImageProjections.HoldAll` | pkg/domain/infra/tunnel/images.go:71-75 | One layer per returned layer, index-aligned, each being what the copy left in its destination whatever the copy error |
| `ImageProjections.List` | pkg/domain/infra/tunnel/images.go:43-59 | A binding error is returned unchanged. Otherwise List succeeds exactly when every row copies, and then returns one summary per returned row, index-aligned with the binding's order. A copy failure returns the error of the first failing row |
| `ImageProjections.History` | pkg/domain/infra/tunnel/images.go:61-77 | Fails exactly when the binding fails, with its error; otherwise returns as many layers as the binding did, in its order, and copy errors are ignored |
| `ImageProjections.ListIsStrictHistoryProjection` | pkg/domain/infra/tunnel/images.go:50-75 | When no copy fails, List's projection equals History's; List's copy loop fails exactly when some row's copy fails |
| `ImageProjections.InspectUpTo` | pkg/domain/infra/tunnel/images.go:155-161 | After n names: one lookup per name in order, never a top-level error, one image slot per name holding the lookup's image (failed ones included), and an error entry exactly for each name with a failed lookup, holding its last failed lookup's error |
| `ImageProjections.ErrorKeysStep` | pkg/domain/infra/tunnel/images.go:156-159 | One more lookup adds its name to the error keys exactly when that lookup failed, so the keys stay exactly the names with a failed lookup |
| `ImageProjections.ErrorValuesStep` | pkg/domain/infra/tunnel/images.go:156-159 | One more lookup keeps every name's entry equal to its last failed lookup's error: a later failure of the same name overwrites the earlier one |
| `ImageProjections.Inspect` | pkg/domain/infra/tunnel/images.go:153-163 | The same over all names |
| `ImageTransfer.Load` | pkg/domain/infra/tunnel/images.go:165-172 | An open failure is returned before any binding call. Otherwise the binding's reply is returned as it is, and the file is closed after the call, so every handle opened is closed |
| `ImageTransfer.Import` | pkg/domain/infra/tunnel/images.go:174-189 | A URL source is passed as the URL with no file opened. A file source is opened first, and an open failure is returned before any binding call. Otherwise the open file is passed and left open |
| `ImageTransfer.LoadClosesImportLeaks` | pkg/domain/infra/tunnel/images.go:165-189 | Load's trace always closes what it opened; an Import that opened its source leaves that handle open |
| `ImageSave.Extract` | pkg/domain/infra/tunnel/images.go:226-243 | The temp archive is reopened and then the output is stat'ed. A regular file fails with the regular-file error and is not extracted into. A missing path gets mkdir 0755 and then untar. Any other existing node gets untar without mkdir. A stat or reopen error is returned. Mkdir happens exactly when the output was missing |
| `ImageSave.Save` | pkg/domain/infra/tunnel/images.go:195-244 | If the writer cannot be had, its error is returned before any export and no binding is called. Save panics exactly when the reopen of the temp archive fails |
| `ImageSave.SaveBracketsBody` | pkg/domain/infra/tunnel/images.go:201-243 | Once the writer exists, the trace is its acquisition, then export, close and the directory steps, then the temp archive's removal for directory formats unless the reopen failed. The result is the body's error |
| `ImageSave.ReopenFailureLosesArchive` | pkg/domain/infra/tunnel/images.go:205-228 | As written: when the reopen of the temp archive fails, Save panics, issues no removal, and the archive stays on the filesystem |
| `ImageSave.SaveCorrected` | pkg/domain/infra/tunnel/images.go:195-244 | The corrected Save never panics. A writer failure returns before any export. Otherwise it returns the body's error, and for directory formats the temp archive's removal is the one event after the body |
| `ImageSave.CorrectedAgreesElsewhere` | pkg/domain/infra/tunnel/images.go:195-244 | Save as written and the corrected Save are equal on every input except a failed reopen, where they differ |
| `ImageSave.FileFormatWritesOutput` | pkg/domain/infra/tunnel/images.go:207-224 | For a file format with a clean create, export and close: nil is returned, and the trace is create, export into the output, close, with no stat, mkdir or untar. An absent or regular output ends as a regular file; an existing node keeps its kind |
| `ImageSave.CloseErrorWins` | pkg/domain/infra/tunnel/images.go:214-220 | Whenever the close fails, its error is returned whatever the export did. The trace is acquisition, export, close, then for directory formats only the temp archive's removal |
| `ImageSave.DirectorySaveRunsExtract` | pkg/domain/infra/tunnel/images.go:203-243 | After a clean export and close in a directory format, Save is temp-file creation, export, close, then the directory steps. With a successful reopen, the temp archive's removal follows, the steps' error is returned, and the archive is gone when the removal succeeds. With a failed reopen, Save panics with no removal |
| `ImageSave.MissingOutputCreated` | pkg/domain/infra/tunnel/images.go:236-243 | A directory-format save whose output does not exist runs mkdir with mode 0755 and then untar, and removes the temp archive last. It returns the untar error and leaves the output a directory |
| `ImageSave.ExtractIntoMissing` | pkg/domain/infra/tunnel/images.go:226-243 | With the reopen and stat clean and the output missing, the directory steps are reopen, stat, mkdir 0755, untar. They return the untar error and add the output as a directory |
| `ImageSave.RegularFileRefused` | pkg/domain/infra/tunnel/images.go:230-235 | A directory-format save onto an existing regular file returns the regular-file error. Its trace is create, export, close, reopen, stat, then removal of the temp archive, with no mkdir or untar |
| `ImageSave.TempArchiveAlwaysRemoved` | pkg/domain/infra/tunnel/images.go:202-228 | In the corrected Save, a created temp archive is removed last on every path, including a failed reopen whose error is returned. The archive is absent afterwards when the removal succeeds. A temp-file failure returns before any export with nothing to remove |

## Left out

- Exists, Pull, Push, Diff, Search and Config (`images.go:17-20`, `95-101`, `191-193`, `246-261`) each forward one call to a binding or to `config.Default()` and return its reply. There is no decision logic to state.
- Prune (`images.go:79-93`) passes the binding's pruned ids through, with no error and a size of zero (`images.go:90` sets `Size: 0`). `ImageProjections.Prune` models that and has no further property to state.
- The remote bindings, the reference parser, the deep copy, the tar extraction and the real `os`/`ioutil` calls are abstract inputs. They are not part of this model.
- The `context` arguments are unused in this file. Cancellation and concurrency are not modelled.
- The `options` of Tag and Untag, and the `tags` argument of Save, are never read by the code. They are not parameters of the model.
- `ImageProjections.InspectUpTo`: the model assumes the `Errors` map of the report is initialised. The code writes `report.Errors[id] = err` into a zero-value report (`images.go:154-158`). If `Errors` is a Go map, that write would panic at run time on the first failed lookup. The report type is not part of this model, so the model does not assert Go's runtime behaviour.
- `ImageProjections.Inspect`: carries the same assumption of an initialised `Errors` map (`images.go:154-158`), for the same reason.
- `Messages.QuoteRoundTrip`: `%q` is modelled for ASCII. That covers `"` and `\`, the seven named control escapes and `\xNN` for the other ASCII control characters. Non-ASCII characters are kept as they are. Go's `\u`/`\U` escapes for non-printable Unicode are not modelled.
- Save never closes the reopened temp archive (`images.go:226`), and Load ignores the error of its deferred close (`images.go:170`). The model records the close as an event and does not model a close error for Load.
- Import passes a typed nil `*os.File` to the binding when the source is a URL (`images.go:178`, `188`). The binding's handling of it is not part of this model. The model passes "no file".
- The contents of the extracted directory and of the exported archive are not modelled. Only the node kinds at the output and temp paths are.
- `ImageSave.FileFormatWritesOutput`: the outcome of `os.Create` is an input of its own and does not follow from the filesystem. So the model does not derive that creating over an existing directory fails, as it does in the operating system.

## Findings

| source | as written | input that shows it | evidently intended | confidence | as-written member | corrected member |
|---|---|---|---|---|---|---|
| pkg/domain/infra/tunnel/images.go:205-228 | The deferred removal calls `f.Name()` on the variable `f`, and line 226 assigns the result of `os.Open` to that same variable. When that open fails, `f` is a nil file, so the deferred call panics instead of returning the open error, and the temp archive is never removed | format `oci-dir`; temp-file creation, export and close succeed; reopening the temp archive fails | The open error is returned and the temp archive is removed, for example by taking the archive's name before line 226 and removing that name | not executed; high: the nil file from a failed `os.Open` and the nil dereference in `Name` are standard Go behaviour | `ImageSave.ReopenFailureLosesArchive` | `ImageSave.TempArchiveAlwaysRemoved` |

=== FILE: delete.dfy ===
/** Delete (images.go:22-41): one `Remove` call per input, in order, folding
    the removal records into a report of deleted ids and untagged names, and
    aborting on the first transport error. */
module ImageDelete {
  import opened Outcomes

  /** One removal record as the binding returns it: a map that may carry a
      `Deleted` and/or an `Untagged` entry. */
  type Record = map<string, string>

  const DeletedKey := "Deleted"
  const UntaggedKey := "Untagged"

  datatype DeleteReport = DeleteReport(deleted: seq<string>, untagged: seq<string>)

  const EmptyReport := DeleteReport([], [])

  datatype RemoveCall = RemoveCall(id: string, force: bool)

  /** The binding's reply to the n-th `Remove` call of a Delete. */
  type RemoveBinding = (nat, RemoveCall) -> Result<seq<Record>>

  /** The value one record holds under `key`, as a list of zero or one. */
  function Field(e: Record, key: string): seq<string>
  {
    if key in e then [e[key]] else []
  }

  /** Reference definition: every value stored under `key`, record by
      record, in order. */
  function Values(records: seq<Record>, key: string): seq<string> {
    if records == [] then [] else Field(records[0], key) + Values(records[1..], key)
  }

  /** The body of the inner loop (lines 30-38) for one record. */
  function AbsorbOne(report: DeleteReport, e: Record): DeleteReport {
    DeleteReport(report.deleted + Field(e, DeletedKey), report.untagged + Field(e, UntaggedKey))
  }

  /** The inner loop (lines 30-38): records are appended one at a time to the
      running report, which ends up extended by exactly the values the
      records carry, in order. */
  function Absorb(report: DeleteReport, records: seq<Record>): (r: DeleteReport)
    ensures r.deleted == report.deleted + Values(records, DeletedKey)
    ensures r.untagged == report.untagged + Values(records, UntaggedKey)
    decreases |records|
  {
    if records == [] then report
    else
      var next := AbsorbOne(report, records[0]);
      AppendAssociates(report.deleted, Field(records[0], DeletedKey), Values(records[1..], DeletedKey));
      AppendAssociates(report.untagged, Field(records[0], UntaggedKey), Values(records[1..], UntaggedKey));
      Absorb(next, records[1..])
  }

  lemma AppendAssociates<T>(a: seq<T>, b: seq<T>, c: seq<T>)
    ensures (a + b) + c == a + (b + c)
  {
  }

  function CallFor(ids: seq<string>, force: bool, j: nat): RemoveCall
    requires j < |ids|
  {
    RemoveCall(ids[j], force)
  }

  /** Whether the removal of input `j` succeeds (the j-th call of the run). */
  predicate Removed(ids: seq<string>, force: bool, remove: RemoveBinding, j: nat)
    requires j < |ids|
  {
    remove(j, CallFor(ids, force, j)).Ok?
  }

  /** The index of the first input at or after `from` whose removal fails. */
  function FirstFailure(ids: seq<string>, force: bool, remove: RemoveBinding, from: nat): (k: Option<nat>)
    requires from <= |ids|
    ensures k.None? ==> forall j :: from <= j < |ids| ==> Removed(ids, force, remove, j)
    ensures k.Some? ==>
      && from <= k.value < |ids| && !Removed(ids, force, remove, k.value)
      && forall j :: from <= j < k.value ==> Removed(ids, force, remove, j)
    decreases |ids| - from
  {
    if from == |ids| then None
    else if !Removed(ids, force, remove, from) then Some(from)
    else FirstFailure(ids, force, remove, from + 1)
  }

  /** Reference definition: everything the removals of inputs `from..` report
      under `key`, input by input, in order. A failed removal contributes
      nothing. */
  function Gathered(ids: seq<string>, force: bool, remove: RemoveBinding, key: string, from: nat): seq<string>
    requires from <= |ids|
    decreases |ids| - from
  {
    if from == |ids| then []
    else
      var reply := remove(from, CallFor(ids, force, from));
      (if reply.Ok? then Values(reply.value, key) else [])
        + Gathered(ids, force, remove, key, from + 1)
  }

  /** What the outer loop promises from input `from` on, having accumulated
      `report`: the calls are the inputs in order, up to and including the
      first failure; with no failure the report is extended by everything
      the removals returned; with one, the failure's error is returned and
      the accumulated report is dropped. */
  ghost predicate DeletesInOrder(ids: seq<string>, force: bool, remove: RemoveBinding, from: nat,
                                 report: DeleteReport, r: Run<DeleteReport, RemoveCall>)
    requires from <= |ids|
  {
    && from + |r.trace| <= |ids|
    && (forall j :: 0 <= j < |r.trace| ==> r.trace[j] == CallFor(ids, force, from + j))
    && match FirstFailure(ids, force, remove, from)
       case None =>
         && |r.trace| == |ids| - from
         && r.result == Ok(DeleteReport(
              report.deleted + Gathered(ids, force, remove, DeletedKey, from),
              report.untagged + Gathered(ids, force, remove, UntaggedKey, from)))
       case Some(k) =>
         && |r.trace| == k - from + 1
         && r.result == Err(remove(k, CallFor(ids, force, k)).error)
  }

  /** The outer loop (lines 25-39) from input `from` on. */
  function DeleteFrom(ids: seq<string>, force: bool, remove: RemoveBinding, from: nat,
                      report: DeleteReport): (r: Run<DeleteReport, RemoveCall>)
    requires from <= |ids|
    ensures DeletesInOrder(ids, force, remove, from, report, r)
    decreases |ids| - from
  {
    if from == |ids| then
      assert report.deleted + [] == report.deleted && report.untagged + [] == report.untagged;
      Run(Ok(report), [])
    else
      var call := CallFor(ids, force, from);
      match remove(from, call)
      case Err(e) => Run(Err(e), [call])
      case Ok(records) =>
        var rest := DeleteFrom(ids, force, remove, from + 1, Absorb(report, records));
        SentBefore(ids, force, remove, from, report, records, rest);
        Run(rest.result, [call] + rest.trace)
  }

  /** One successful removal followed by a conforming rest of the run makes
      a conforming run. */
  lemma SentBefore(ids: seq<string>, force: bool, remove: RemoveBinding, from: nat,
                   report: DeleteReport, records: seq<Record>, rest: Run<DeleteReport, RemoveCall>)
    requires from < |ids| && remove(from, CallFor(ids, force, from)) == Ok(records)
    requires DeletesInOrder(ids, force, remove, from + 1, Absorb(report, records), rest)
    ensures DeletesInOrder(ids, force, remove, from, report, Run(rest.result, [CallFor(ids, force, from)] + rest.trace))
  {
    var call := CallFor(ids, force, from);
    var r := Run(rest.result, [call] + rest.trace);
    assert FirstFailure(ids, force, remove, from) == FirstFailure(ids, force, remove, from + 1);
    assert forall j :: 1 <= j < |r.trace| ==> r.trace[j] == rest.trace[j - 1];
    if FirstFailure(ids, force, remove, from + 1).None? {
      assert Gathered(ids, force, remove, DeletedKey, from)
          == Values(records, DeletedKey) + Gathered(ids, force, remove, DeletedKey, from + 1);
      assert Gathered(ids, force, remove, UntaggedKey, from)
          == Values(records, UntaggedKey) + Gathered(ids, force, remove, UntaggedKey, from + 1);
      AppendAssociates(report.deleted, Values(records, DeletedKey), Gathered(ids, force, remove, DeletedKey, from + 1));
      AppendAssociates(report.untagged, Values(records, UntaggedKey), Gathered(ids, force, remove, UntaggedKey, from + 1));
    }
  }

  /** Delete (lines 22-41). */
  function Delete(ids: seq<string>, force: bool, remove: RemoveBinding): (r: Run<DeleteReport, RemoveCall>)
    ensures DeletesInOrder(ids, force, remove, 0, EmptyReport, r)
  {
    DeleteFrom(ids, force, remove, 0, EmptyReport)
  }

  /** With no failing removal, Delete sends every input once, in order, and
      its lists are the concatenations of the records' values in input
      order. */
  lemma DeleteConcatenatesInInputOrder(ids: seq<string>, force: bool, remove: RemoveBinding)
    requires forall j :: 0 <= j < |ids| ==> Removed(ids, force, remove, j)
    ensures var r := Delete(ids, force, remove);
      && r.trace == seq(|ids|, j requires 0 <= j < |ids| => RemoveCall(ids[j], force))
      && r.result == Ok(DeleteReport(Gathered(ids, force, remove, DeletedKey, 0),
                                     Gathered(ids, force, remove, UntaggedKey, 0)))
  {
    var r := Delete(ids, force, remove);
    assert FirstFailure(ids, force, remove, 0).None?;
    assert [] + Gathered(ids, force, remove, DeletedKey, 0) == Gathered(ids, force, remove, DeletedKey, 0);
    assert [] + Gathered(ids, force, remove, UntaggedKey, 0) == Gathered(ids, force, remove, UntaggedKey, 0);
    assert |r.trace| == |ids|;
    assert forall j :: 0 <= j < |ids| ==> r.trace[j] == RemoveCall(ids[j], force);
  }

  /** If the removal of input `k` fails and all earlier ones succeed,
      Delete returns that error and no report, and inputs after `k` are
      never sent. */
  lemma DeleteStopsAtFirstError(ids: seq<string>, force: bool, remove: RemoveBinding, k: nat)
    requires k < |ids| && !Removed(ids, force, remove, k)
    requires forall j :: 0 <= j < k ==> Removed(ids, force, remove, j)
    ensures var r := Delete(ids, force, remove);
      && r.result == Err(remove(k, RemoveCall(ids[k], force)).error)
      && r.trace == seq(k + 1, j requires 0 <= j <= k => RemoveCall(ids[j], force))
  {
    var r := Delete(ids, force, remove);
    assert FirstFailure(ids, force, remove, 0) == Some(k);
    assert |r.trace| == k + 1;
    assert forall j :: 0 <= j <= k ==> r.trace[j] == RemoveCall(ids[j], force);
  }

  /** A record with neither key contributes nothing; a record with both
      contributes to both lists. */
  lemma {:induction false} RecordContributions(report: DeleteReport, e: Record)
    ensures Absorb(report, [e]).deleted == report.deleted + Field(e, DeletedKey)
    ensures Absorb(report, [e]).untagged == report.untagged + Field(e, UntaggedKey)
  {
    assert Values([e], DeletedKey) == Field(e, DeletedKey) + Values([], DeletedKey);
    assert Values([e], UntaggedKey) == Field(e, UntaggedKey) + Values([], UntaggedKey);
  }
}

=== FILE: effects.dfy ===
/** The local filesystem actions and binding calls that Load, Import and Save
    issue, recorded in the order they happen, and the open file handles a
    trace leaves behind. */
module Effects {
  import opened Outcomes

  datatype Event =
    | MakeTemp(prefix: string)                  // ioutil.TempFile in the system temp directory
    | Create(path: string)                      // os.Create
    | Open(path: string, succeeded: bool)       // os.Open, and whether it succeeded
    | Close(path: string)                       // closing the handle opened on path
    | Stat(path: string)                        // os.Stat
    | Mkdir(path: string, mode: nat)            // os.Mkdir
    | Untar(dest: string, archive: string)      // extracting archive into dest
    | Remove(path: string)                      // os.Remove
    | ExportCall(nameOrId: string, target: string, format: string, compress: bool)
    | LoadCall(input: string, name: string)     // the binding reads the file opened on input
    | ImportCall(request: ImportRequest)

  /** The arguments of the Import binding: the source is either a URL or the
      file opened on a path, the other being nil. */
  datatype ImportRequest = ImportRequest(changes: seq<string>, message: string, reference: string,
                                         url: Option<string>, file: Option<string>)

  /** The paths with a handle still open after `trace`, counted with
      multiplicity: each successful `Open` adds one and each `Close` takes one
      away. */
  function OpenHandles(trace: seq<Event>): multiset<string> {
    if trace == [] then multiset{}
    else Track(OpenHandles(trace[..|trace| - 1]), trace[|trace| - 1])
  }

  /** The open handles after one more event. */
  function Track(handles: multiset<string>, e: Event): multiset<string> {
    match e
    case Open(p, succeeded) => if succeeded then handles + multiset{p} else handles
    case Close(p) => handles - multiset{p}
    case _ => handles
  }

  /** Opening `p` and then one event that neither opens nor closes leaves
      exactly `p` open; closing `p` afterwards leaves nothing open. A failed
      open leaves nothing open. */
  lemma OpenUseClose(p: string, use: Event)
    requires !use.Open? && !use.Close?
    ensures OpenHandles([Open(p, false)]) == multiset{}
    ensures OpenHandles([Open(p, true), use]) == multiset{p}
    ensures OpenHandles([Open(p, true), use, Close(p)]) == multiset{}
  {
    var t := [Open(p, true), use, Close(p)];
    assert [Open(p, false)][..0] == [];
    assert t[..2] == [Open(p, true), use] && t[..2][..1] == [Open(p, true)] && [Open(p, true)][..0] == [];
    assert OpenHandles([Open(p, true)]) == multiset{p};
    assert OpenHandles(t[..2]) == multiset{p};
  }

  /** Whether every handle opened in `trace` is closed in it. */
  predicate Balanced(trace: seq<Event>) {
    OpenHandles(trace) == multiset{}
  }

  /** Whether `trace` contains a binding call. */
  predicate CallsBinding(trace: seq<Event>) {
    exists e :: e in trace && (e.ExportCall? || e.LoadCall? || e.ImportCall?)
  }
}

=== FILE: messages.dfy ===
/** The text of the errors the engine raises itself, and Go's `%q` quoting of
    the name they carry. */
module Messages {
  import opened Outcomes

  const InvalidNamePrefix := "invalid image name "
  const RegularFileSuffix := " already exists as a regular file"

  /** The letter Go writes after a backslash for the seven named control
      escapes (`\a \b \f \n \r \t \v`). */
  function NamedEscape(c: char): Option<char> {
    if c as int == 7 then Some('a')
    else if c as int == 8 then Some('b')
    else if c as int == 12 then Some('f')
    else if c == '\n' then Some('n')
    else if c == '\r' then Some('r')
    else if c == '\t' then Some('t')
    else if c as int == 11 then Some('v')
    else None
  }

  /** The control character a named escape letter stands for. */
  function NamedControl(letter: char): Option<char> {
    if letter == 'a' then Some(7 as char)
    else if letter == 'b' then Some(8 as char)
    else if letter == 'f' then Some(12 as char)
    else if letter == 'n' then Some('\n')
    else if letter == 'r' then Some('\r')
    else if letter == 't' then Some('\t')
    else if letter == 'v' then Some(11 as char)
    else None
  }

  /** ASCII control characters without a named escape, written as `\xNN`. */
  predicate IsHexEscaped(c: char) {
    (c < ' ' || c as int == 0x7F) && NamedEscape(c).None?
  }

  function HexDigit(n: nat): char
    requires n < 16
  {
    if n < 10 then ('0' as int + n) as char else ('a' as int + n - 10) as char
  }

  function HexValue(d: char): Option<nat> {
    if '0' <= d <= '9' then Some(d as int - '0' as int)
    else if 'a' <= d <= 'f' then Some(d as int - 'a' as int + 10)
    else None
  }

  /** How `%q` writes one character between the quotes. Characters outside
      ASCII are written as they are. */
  function EscapeChar(c: char): (e: string)
    ensures 1 <= |e| <= 4
  {
    if c == '"' || c == '\\' then ['\\', c]
    else if NamedEscape(c).Some? then ['\\', NamedEscape(c).value]
    else if IsHexEscaped(c) then ['\\', 'x', HexDigit(c as int / 16), HexDigit(c as int % 16)]
    else [c]
  }

  function Escape(s: string): string {
    if s == [] then [] else EscapeChar(s[0]) + Escape(s[1..])
  }

  /** Go's `%q` of a string. */
  function Quote(s: string): (q: string)
    ensures |q| >= 2 && q[0] == '"' && q[|q| - 1] == '"'
  {
    ['"'] + Escape(s) + ['"']
  }

  /** Reads one escaped character at the head of `t`: the character and how
      many characters of `t` it took. */
  function DecodeOne(t: string): (r: Option<(char, nat)>)
    requires |t| > 0
    ensures r.Some? ==> 1 <= r.value.1 <= |t|
  {
    if t[0] != '\\' then Some((t[0], 1))
    else if |t| < 2 then None
    else if t[1] == '"' || t[1] == '\\' then Some((t[1], 2))
    else if NamedControl(t[1]).Some? then Some((NamedControl(t[1]).value, 2))
    else if t[1] == 'x' && |t| >= 4 && HexValue(t[2]).Some? && HexValue(t[3]).Some? then
      Some(((HexValue(t[2]).value * 16 + HexValue(t[3]).value) as char, 4))
    else None
  }

  function Unescape(t: string): Option<string>
    decreases |t|
  {
    if t == [] then Some([])
    else match DecodeOne(t)
      case None => None
      case Some((c, n)) =>
        match Unescape(t[n..])
        case None => None
        case Some(rest) => Some([c] + rest)
  }

  /** The inverse of `Quote`. */
  function Unquote(q: string): Option<string> {
    if |q| >= 2 && q[0] == '"' && q[|q| - 1] == '"' then Unescape(q[1..|q| - 1]) else None
  }

  /** The text of an error. Collaborators' errors carry their own text. */
  function Message(e: Error): string {
    match e
    case Remote(d) => d
    case Reference(d) => d
    case Io(d) => d
    case Copy(d) => d
    case InvalidImageName(n) => InvalidNamePrefix + Quote(n)
    case RegularFileExists(p) => Quote(p) + RegularFileSuffix
  }

  lemma DecodeEscapedChar(c: char, t: string)
    ensures DecodeOne(EscapeChar(c) + t) == Some((c, |EscapeChar(c)|))
  {
    var e := EscapeChar(c);
    if IsHexEscaped(c) && !(c == '"' || c == '\\') {
      var hi, lo := c as int / 16, c as int % 16;
      assert HexValue(HexDigit(hi)) == Some(hi);
      assert HexValue(HexDigit(lo)) == Some(lo);
      assert (e + t)[2] == HexDigit(hi) && (e + t)[3] == HexDigit(lo);
      assert hi * 16 + lo == c as int;
    }
  }

  lemma {:induction false} UnescapeEscape(s: string)
    ensures Unescape(Escape(s)) == Some(s)
  {
    if s != [] {
      var t := Escape(s);
      var e := EscapeChar(s[0]);
      assert t == e + Escape(s[1..]);
      DecodeEscapedChar(s[0], Escape(s[1..]));
      assert t[|e|..] == Escape(s[1..]);
      UnescapeEscape(s[1..]);
      assert [s[0]] + s[1..] == s;
    }
  }

  /** `%q` loses nothing: the quoted text gives back the original string. */
  lemma QuoteRoundTrip(s: string)
    ensures Unquote(Quote(s)) == Some(s)
  {
    var q := Quote(s);
    assert q[1..|q| - 1] == Escape(s);
    UnescapeEscape(s);
  }

  /** The empty-repository error names `nameOrId` exactly: its text is the
      fixed prefix followed by a quoting that reads back as `nameOrId`. */
  lemma InvalidNameMessageNamesInput(nameOrId: string)
    ensures var m := Message(InvalidImageName(nameOrId));
      |m| > |InvalidNamePrefix| && m[..|InvalidNamePrefix|] == InvalidNamePrefix
      && Unquote(m[|InvalidNamePrefix|..]) == Some(nameOrId)
  {
    var m := Message(InvalidImageName(nameOrId));
    assert m[|InvalidNamePrefix|..] == Quote(nameOrId);
    QuoteRoundTrip(nameOrId);
  }

  /** The regular-file error names the output path exactly. */
  lemma RegularFileMessageNamesPath(path: string)
    ensures var m := Message(RegularFileExists(path));
      var k := |m| - |RegularFileSuffix|;
      k >= 2 && m[k..] == RegularFileSuffix && Unquote(m[..k]) == Some(path)
  {
    var m := Message(RegularFileExists(path));
    var k := |m| - |RegularFileSuffix|;
    assert m[..k] == Quote(path);
    QuoteRoundTrip(path);
  }
}

=== FILE: outcomes.dfy ===
/** Values shared by every operation of the remote image engine: optional
    values, errors, results, and the pairing of a result with the ordered
    trace of calls an operation issued. */
module Outcomes {

  /** An optional value; Go's nil pointers and nil errors are `None`. */
  datatype Option<+T> = None | Some(value: T) {

    /** The value, or `default` when there is none. */
    function GetOr(default: T): T {
      match this
      case Some(v) => v
      case None => default
    }
  }

  /** An error as the engine surfaces it. The first four kinds come from
      collaborators and are passed through unchanged; the last two are raised
      by the engine itself. */
  datatype Error =
    | Remote(detail: string)            // returned by a remote binding
    | Reference(detail: string)         // returned by the image-reference parser
    | Io(detail: string)                // returned by the local filesystem
    | Copy(detail: string)              // returned by the structural deep copy
    | InvalidImageName(nameOrId: string)
    | RegularFileExists(path: string)

  /** Go's `(value, error)` pair, in which exactly one side is meaningful. */
  datatype Result<+T> = Ok(value: T) | Err(error: Error)

  /** What an operation returns, together with the calls it issued, in order. */
  datatype Run<+T, +C> = Run(result: Result<T>, trace: seq<C>)
}

=== FILE: projections.dfy ===
/** The operations that project binding replies onto report types: List
    (images.go:43-59), History (61-77) and Prune (79-93), one request each,
    and Inspect (153-163), one lookup per name. */
module ImageProjections {
  import opened Outcomes

  /** What the structural deep copy leaves in its destination, and the error
      it returned. The destination may be partly filled when it fails. */
  datatype Copied<R> = Copied(hold: R, err: Option<Error>)

  /** The deep copy from a wire value to a report value, as an abstract
      collaborator. */
  type Copier<-W, R> = W -> Copied<R>

  type Filters = map<string, seq<string>>

  /** The arguments of the binding calls that take `all` and filters. */
  datatype Query = Query(all: bool, filters: Filters)

  /** The copy loop of List (lines 50-57): each row is copied in order and
      the first copy error aborts the whole list. */
  function CopyAll<W, R>(rows: seq<W>, copy: Copier<W, R>): (r: Result<seq<R>>)
    ensures r.Ok? <==> forall j :: 0 <= j < |rows| ==> copy(rows[j]).err.None?
    ensures r.Ok? ==> |r.value| == |rows| && forall j :: 0 <= j < |rows| ==> r.value[j] == copy(rows[j]).hold
    ensures r.Err? ==> exists k :: 0 <= k < |rows| && copy(rows[k]).err == Some(r.error)
                                  && forall j :: 0 <= j < k ==> copy(rows[j]).err.None?
  {
    if rows == [] then Ok([])
    else match copy(rows[0]).err
      case Some(e) => Err(e)
      case None =>
        match CopyAll(rows[1..], copy)
        case Err(e) =>
          ghost var k :| 0 <= k < |rows| - 1 && copy(rows[1..][k]).err == Some(e)
                          && forall j :: 0 <= j < k ==> copy(rows[1..][j]).err.None?;
          assert copy(rows[k + 1]).err == Some(e);
          assert forall j :: 1 <= j < k + 1 ==> copy(rows[j]).err.None? by {
            forall j | 1 <= j < k + 1 ensures copy(rows[j]).err.None? {
              assert rows[j] == rows[1..][j - 1];
            }
          }
          Err(e)
        case Ok(rest) =>
          assert forall j :: 1 <= j < |rows| ==> rows[j] == rows[1..][j - 1];
          Ok([copy(rows[0]).hold] + rest)
  }

  /** The copy loop of History (lines 71-75): the copy error is discarded and
      whatever the copy left in its destination is kept. */
  function HoldAll<W, R>(rows: seq<W>, copy: Copier<W, R>): (r: seq<R>)
    ensures |r| == |rows|
    ensures forall j :: 0 <= j < |rows| ==> r[j] == copy(rows[j]).hold
  {
    if rows == [] then []
    else
      var rest := HoldAll(rows[1..], copy);
      assert forall j :: 1 <= j < |rows| ==> rows[j] == rows[1..][j - 1];
      [copy(rows[0]).hold] + rest
  }

  /** List (lines 43-59): a binding error is returned as it is; otherwise
      one summary per row, in the binding's order, unless a copy fails, in
      which case the first failing copy's error is returned. */
  function List<W, R>(all: bool, filters: Filters, list: Query -> Result<seq<W>>, copy: Copier<W, R>): (r: Result<seq<R>>)
    ensures list(Query(all, filters)).Err? ==> r == Err(list(Query(all, filters)).error)
    ensures list(Query(all, filters)).Ok? ==>
      var rows := list(Query(all, filters)).value;
      && (r.Ok? <==> forall j :: 0 <= j < |rows| ==> copy(rows[j]).err.None?)
      && (r.Ok? ==> |r.value| == |rows| && forall j :: 0 <= j < |rows| ==> r.value[j] == copy(rows[j]).hold)
      && (r.Err? ==> exists k :: 0 <= k < |rows| && copy(rows[k]).err == Some(r.error)
                                && forall j :: 0 <= j < k ==> copy(rows[j]).err.None?)
  {
    match list(Query(all, filters))
    case Err(e) => Err(e)
    case Ok(rows) => CopyAll(rows, copy)
  }

  /** History (lines 61-77): one layer per layer the binding returned, in
      the binding's order; copy errors never fail the call. */
  function History<W, R>(nameOrId: string, history: string -> Result<seq<W>>, copy: Copier<W, R>): (r: Result<seq<R>>)
    ensures history(nameOrId).Err? <==> r.Err?
    ensures r.Err? ==> r.error == history(nameOrId).error
    ensures r.Ok? ==>
      && |r.value| == |history(nameOrId).value|
      && forall j :: 0 <= j < |r.value| ==> r.value[j] == copy(history(nameOrId).value[j]).hold
  {
    match history(nameOrId)
    case Err(e) => Err(e)
    case Ok(layers) => Ok(HoldAll(layers, copy))
  }

  /** Where List and History agree: when no copy fails, List's rows are the
      same projection History makes, and a copy failure is the only way a
      successful binding reply can fail List. */
  lemma ListIsStrictHistoryProjection<W, R>(rows: seq<W>, copy: Copier<W, R>)
    ensures CopyAll(rows, copy).Ok? ==> CopyAll(rows, copy).value == HoldAll(rows, copy)
    ensures CopyAll(rows, copy).Err? <==> exists k :: 0 <= k < |rows| && copy(rows[k]).err.Some?
  {
    var r := CopyAll(rows, copy);
    if r.Ok? {
      assert |r.value| == |HoldAll(rows, copy)|;
    } else {
      var k :| 0 <= k < |rows| && copy(rows[k]).err == Some(r.error);
      assert copy(rows[k]).err.Some?;
    }
  }

  datatype PruneReport = PruneReport(ids: seq<string>, err: Option<Error>, size: nat)

  /** Prune (lines 79-93): the pruned ids are passed through unchanged, and
      the reclaimed size is reported as zero (line 90). */
  function Prune(all: bool, filters: Filters, prune: Query -> Result<seq<string>>): Result<PruneReport>
  {
    match prune(Query(all, filters))
    case Err(e) => Err(e)
    case Ok(ids) => Ok(PruneReport(ids, None, 0))
  }

  datatype InspectCall = InspectCall(id: string, size: bool)

  /** The binding's `(image, error)` reply to one lookup. */
  datatype Lookup<I> = Lookup(image: Option<I>, err: Option<Error>)

  /** The binding's reply to the n-th lookup of an Inspect. */
  type LookupBinding<I> = (nat, InspectCall) -> Lookup<I>

  datatype InspectReport<I> = InspectReport(images: seq<Option<I>>, errors: map<string, Error>)

  predicate Failed<I>(names: seq<string>, size: bool, get: LookupBinding<I>, j: nat)
    requires j < |names|
  {
    get(j, InspectCall(names[j], size)).err.Some?
  }

  /** Whether lookup `j` is the last failed lookup of its name among the
      first `n`. */
  ghost predicate LastFailure<I>(names: seq<string>, size: bool, get: LookupBinding<I>, j: nat, n: nat)
    requires j < n <= |names|
  {
    && Failed(names, size, get, j)
    && forall j' :: j < j' < n && names[j'] == names[j] ==> !Failed(names, size, get, j')
  }

  /** An error entry exactly for each name among the first `n` with a
      failed lookup. */
  ghost predicate ErrorKeys<I>(names: seq<string>, size: bool, get: LookupBinding<I>, n: nat,
                               errors: map<string, Error>)
    requires n <= |names|
  {
    forall id :: id in errors <==> exists j :: 0 <= j < n && names[j] == id && Failed(names, size, get, j)
  }

  /** Each entry holds the error of its name's last failed lookup among the
      first `n`. */
  ghost predicate ErrorValues<I>(names: seq<string>, size: bool, get: LookupBinding<I>, n: nat,
                                 errors: map<string, Error>)
    requires n <= |names|
  {
    forall j :: 0 <= j < n && LastFailure(names, size, get, j, n) ==>
      names[j] in errors && errors[names[j]] == get(j, InspectCall(names[j], size)).err.value
  }

  /** What the loop of Inspect holds after `n` names: one lookup per name,
      in order; no top-level error; one image slot per name, index-aligned,
      holding whatever the lookup returned (also for a failed one); and an
      error entry exactly for each name with a failed lookup, holding the
      error of its last failed lookup. */
  ghost predicate InspectedUpTo<I>(names: seq<string>, size: bool, get: LookupBinding<I>, n: nat,
                                   r: Run<InspectReport<I>, InspectCall>)
    requires n <= |names|
  {
    && r.result.Ok?
    && |r.trace| == n
    && (forall j :: 0 <= j < n ==> r.trace[j] == InspectCall(names[j], size))
    && |r.result.value.images| == n
    && (forall j :: 0 <= j < n ==> r.result.value.images[j] == get(j, InspectCall(names[j], size)).image)
    && ErrorKeys(names, size, get, n, r.result.value.errors)
    && ErrorValues(names, size, get, n, r.result.value.errors)
  }

  /** The error map after lookup `n - 1` (line 158). */
  function Note<I>(names: seq<string>, size: bool, get: LookupBinding<I>, n: nat,
                   errors: map<string, Error>): map<string, Error>
    requires 0 < n <= |names|
  {
    var reply := get(n - 1, InspectCall(names[n - 1], size));
    if reply.err.Some? then errors[names[n - 1] := reply.err.value] else errors
  }

  /** The loop of Inspect (lines 155-161) over the first `n` names. */
  function InspectUpTo<I>(names: seq<string>, size: bool, get: LookupBinding<I>, n: nat): (r: Run<InspectReport<I>, InspectCall>)
    requires n <= |names|
    ensures InspectedUpTo(names, size, get, n, r)
  {
    if n == 0 then Run(Ok(InspectReport([], map[])), [])
    else
      var before := InspectUpTo(names, size, get, n - 1);
      var report := before.result.value;
      var call := InspectCall(names[n - 1], size);
      var errors := Note(names, size, get, n, report.errors);
      ErrorKeysStep(names, size, get, n, report.errors);
      ErrorValuesStep(names, size, get, n, report.errors);
      Run(Ok(InspectReport(report.images + [get(n - 1, call).image], errors)), before.trace + [call])
  }

  lemma ErrorKeysStep<I>(names: seq<string>, size: bool, get: LookupBinding<I>, n: nat, errors: map<string, Error>)
    requires 0 < n <= |names|
    requires ErrorKeys(names, size, get, n - 1, errors)
    ensures ErrorKeys(names, size, get, n, Note(names, size, get, n, errors))
  {
    var after := Note(names, size, get, n, errors);
    forall id
      ensures id in after <==> exists j :: 0 <= j < n && names[j] == id && Failed(names, size, get, j)
    {
      if id in after && !(id == names[n - 1] && Failed(names, size, get, n - 1)) {
        assert id in errors;
      }
    }
  }

  lemma ErrorValuesStep<I>(names: seq<string>, size: bool, get: LookupBinding<I>, n: nat, errors: map<string, Error>)
    requires 0 < n <= |names|
    requires ErrorValues(names, size, get, n - 1, errors)
    ensures ErrorValues(names, size, get, n, Note(names, size, get, n, errors))
  {
    var after := Note(names, size, get, n, errors);
    forall j | 0 <= j < n && LastFailure(names, size, get, j, n)
      ensures names[j] in after && after[names[j]] == get(j, InspectCall(names[j], size)).err.value
    {
      if j < n - 1 {
        assert LastFailure(names, size, get, j, n - 1);
        assert names[j] != names[n - 1] || !Failed(names, size, get, n - 1);
      }
    }
  }

  /** Inspect (lines 153-163): never fails as a whole; per-name failures are
      recorded under the name, and the image list stays index-aligned with
      the input, failed lookups included. */
  function Inspect<I>(names: seq<string>, size: bool, get: LookupBinding<I>): (r: Run<InspectReport<I>, InspectCall>)
    ensures InspectedUpTo(names, size, get, |names|, r)
  {
    InspectUpTo(names, size, get, |names|)
  }
}

=== FILE: save.dfy ===
/** Save (images.go:195-244): export an image into either the user's output
    file or, for the two directory formats, a temporary archive that is then
    unpacked into the output directory. */
module ImageSave {
  import opened Outcomes
  import opened Effects

  const OciDir := "oci-dir"
  const DockerDir := "docker-dir"
  const TempPrefix := "podman_save"
  /** 0755: read, write and search for the owner, read and search for
      everyone else. */
  const DirMode: nat := 493

  /** The formats whose output is a directory; every other string, known or
      not, is written to the output file directly. */
  predicate IsDirFormat(format: string) {
    format == OciDir || format == DockerDir
  }

  datatype SaveOptions = SaveOptions(format: string, output: string, compress: bool)

  /** What a path holds; a path not in the map does not exist. */
  datatype Node = RegularFile | Directory | OtherNode

  type FileSystem = map<string, Node>

  /** The filesystem Save starts from and the outcome of each step it may
      take; each step runs at most once. `stat` is a stat failure other than
      "does not exist", which the filesystem itself decides. */
  datatype World = World(
    fs: FileSystem,
    tempFile: Result<string>,   // ioutil.TempFile: the new file's path, or an error
    create: Option<Error>,      // os.Create of the output
    exported: Option<Error>,    // the Export binding
    close: Option<Error>,       // closing the written file
    reopen: Option<Error>,      // os.Open of the temporary archive
    stat: Option<Error>,        // os.Stat of the output
    mkdir: Option<Error>,       // os.Mkdir of the output
    untar: Option<Error>,       // extracting the archive into the output
    remove: Option<Error>)      // the deferred os.Remove of the temporary archive, whose error is discarded

  datatype SaveRun = SaveRun(err: Option<Error>, trace: seq<Event>, fs: FileSystem)

  /** What os.Stat reports about a path. */
  datatype StatReply = Found(node: Node) | Missing | StatFailed(error: Error)

  function StatOf(w: World, fs: FileSystem, path: string): StatReply
  {
    if w.stat.Some? then StatFailed(w.stat.value)
    else if path in fs then Found(fs[path])
    else Missing
  }

  /** The file Export writes to (lines 201-209). */
  function Writer(options: SaveOptions, w: World): Result<string>
  {
    if IsDirFormat(options.format) then w.tempFile
    else match w.create
      case Some(e) => Err(e)
      case None => Ok(options.output)
  }

  /** The directory finalisation (lines 226-243), starting once the
      temporary archive `archive` has been written and closed: reopen it,
      stat the output, then fail, create the directory, or go straight to
      extraction. */
  function Extract(options: SaveOptions, w: World, archive: string, fs: FileSystem): (r: SaveRun)
    ensures |r.trace| >= 1 && r.trace[0] == Open(archive, w.reopen.None?)
    ensures w.reopen.Some? ==> r.err == w.reopen && |r.trace| == 1
    ensures w.reopen.None? ==> |r.trace| >= 2 && r.trace[1] == Stat(options.output)
    ensures w.reopen.None? ==>
      match StatOf(w, fs, options.output)
      case StatFailed(e) => r.err == Some(e) && |r.trace| == 2
      case Found(node) =>
        if node == RegularFile then
          r.err == Some(RegularFileExists(options.output)) && |r.trace| == 2
        else
          r.trace[2..] == [Untar(options.output, archive)] && r.err == w.untar
      case Missing =>
        && |r.trace| >= 3 && r.trace[2] == Mkdir(options.output, DirMode)
        && (w.mkdir.Some? ==> r.err == w.mkdir && |r.trace| == 3)
        && (w.mkdir.None? ==> r.trace[3..] == [Untar(options.output, archive)] && r.err == w.untar)
    ensures Mkdir(options.output, DirMode) in r.trace <==> w.reopen.None? && StatOf(w, fs, options.output).Missing?
    ensures r.fs == if Mkdir(options.output, DirMode) in r.trace && w.mkdir.None?
                    then fs[options.output := Directory] else fs
  {
    if w.reopen.Some? then SaveRun(w.reopen, [Open(archive, false)], fs)
    else
      var statted := [Open(archive, true), Stat(options.output)];
      match StatOf(w, fs, options.output)
      case StatFailed(e) => SaveRun(Some(e), statted, fs)
      case Found(node) =>
        if node == RegularFile then SaveRun(Some(RegularFileExists(options.output)), statted, fs)
        else SaveRun(w.untar, statted + [Untar(options.output, archive)], fs)
      case Missing =>
        var made := statted + [Mkdir(options.output, DirMode)];
        if w.mkdir.Some? then SaveRun(w.mkdir, made, fs)
        else SaveRun(w.untar, made + [Untar(options.output, archive)], fs[options.output := Directory])
  }

  /** Export into `f`, close `f`, and only then judge the export (lines
      214-224): a close error is returned even when the export failed too;
      for a file format a clean export and close end the call. */
  function ExportAndFinish(nameOrId: string, options: SaveOptions, w: World, f: string, fs: FileSystem): (r: SaveRun)
    ensures |r.trace| >= 2
    ensures r.trace[0] == ExportCall(nameOrId, f, options.format, options.compress) && r.trace[1] == Close(f)
  {
    var written := [ExportCall(nameOrId, f, options.format, options.compress), Close(f)];
    if w.close.Some? then SaveRun(w.close, written, fs)
    else if w.exported.Some? then SaveRun(w.exported, written, fs)
    else if !IsDirFormat(options.format) then SaveRun(None, written, fs)
    else
      var x := Extract(options, w, f, fs);
      SaveRun(x.err, written + x.trace, x.fs)
  }

  /** The event that acquires the writer. */
  function Acquire(options: SaveOptions): Event {
    if IsDirFormat(options.format) then MakeTemp(TempPrefix) else Create(options.output)
  }

  /** The filesystem once the writer `f` exists: a new path becomes a regular
      file, and an existing node (a device such as /dev/stdout, or a file
      that os.Create truncates) keeps its kind. */
  function Acquired(fs: FileSystem, f: string): FileSystem {
    if f in fs then fs else fs[f := RegularFile]
  }

  /** How Save ends: it returns an error or nil, or its deferred removal
      panics. */
  datatype Ending = Returned(err: Option<Error>) | Panicked

  datatype Saved = Saved(end: Ending, trace: seq<Event>, fs: FileSystem)

  /** Whether Save gets as far as reopening the temporary archive (line 226)
      and the reopen fails. */
  predicate ReopenFails(options: SaveOptions, w: World) {
    && IsDirFormat(options.format) && w.tempFile.Ok?
    && w.exported.None? && w.close.None? && w.reopen.Some?
  }

  /** The deferred removal of the temporary archive (line 205) and the
      return, once the writer `f` was acquired and the rest of the body ran.
      When `nameLost`, the closure finds the file variable nil and panics
      before it removes anything. */
  function Unwind(options: SaveOptions, w: World, f: string, body: SaveRun, nameLost: bool): (r: Saved)
    ensures var removes := IsDirFormat(options.format) && !nameLost;
      && |r.trace| == 1 + |body.trace| + (if removes then 1 else 0)
      && r.trace[0] == Acquire(options)
      && r.trace[1..1 + |body.trace|] == body.trace
      && (removes ==> r.trace[|r.trace| - 1] == Remove(f))
  {
    var first := Acquire(options);
    if !IsDirFormat(options.format) then Saved(Returned(body.err), [first] + body.trace, body.fs)
    else if nameLost then Saved(Panicked, [first] + body.trace, body.fs)
    else
      var trace := [first] + body.trace + [Remove(f)];
      assert trace[1..1 + |body.trace|] == body.trace;
      Saved(Returned(body.err), trace, if w.remove.None? then body.fs - {f} else body.fs)
  }

  /** Save's body followed by the deferred removal. With `keepsName`, the
      removal uses the archive's path taken when it was created; without
      it, the removal reads the file variable that the reopen overwrites. */
  function Saving(nameOrId: string, options: SaveOptions, w: World, keepsName: bool): Saved {
    match Writer(options, w)
    case Err(e) => Saved(Returned(Some(e)), [Acquire(options)], w.fs)
    case Ok(f) =>
      var body := ExportAndFinish(nameOrId, options, w, f, Acquired(w.fs, f));
      Unwind(options, w, f, body, !keepsName && ReopenFails(options, w))
  }

  /** Save (lines 195-244) as written. When the writer cannot be had, its
      error is returned before any export and nothing is scheduled for
      removal. Once a temporary archive exists, its removal is the last thing
      done, except when the reopen of line 226 fails: os.Open then returns a
      nil file into the variable the deferred closure reads, `f.Name()`
      panics, and the archive stays. */
  function Save(nameOrId: string, options: SaveOptions, w: World): (r: Saved)
    ensures |r.trace| >= 1 && r.trace[0] == Acquire(options)
    ensures r.end.Panicked? <==> ReopenFails(options, w)
    ensures Writer(options, w).Err? ==>
      && r.end == Returned(Some(Writer(options, w).error))
      && r.trace == [Acquire(options)]
      && !CallsBinding(r.trace)
  {
    Saving(nameOrId, options, w, false)
  }

  /** Once the writer exists, Save is its acquisition, then export, close
      and finalisation, then the removal of a temporary archive unless the
      reopen failed; it returns what the body returned. */
  lemma SaveBracketsBody(nameOrId: string, options: SaveOptions, w: World)
    requires Writer(options, w).Ok?
    ensures var r := Save(nameOrId, options, w);
      var f := Writer(options, w).value;
      var body := ExportAndFinish(nameOrId, options, w, f, Acquired(w.fs, f));
      var removes := IsDirFormat(options.format) && !ReopenFails(options, w);
      && (r.end.Returned? ==> r.end.err == body.err)
      && |r.trace| == 1 + |body.trace| + (if removes then 1 else 0)
      && r.trace[1..1 + |body.trace|] == body.trace
      && (removes ==>
            && r.trace[|r.trace| - 1] == Remove(f)
            && r.fs == if w.remove.None? then body.fs - {f} else body.fs)
      && (!removes ==> r.fs == body.fs)
  {
  }

  /** Save with the archive's path kept from its creation, so that the
      deferred removal no longer depends on the reopen: the reopen error is
      returned like any other, and the archive is removed on every path. */
  function SaveCorrected(nameOrId: string, options: SaveOptions, w: World): (r: Saved)
    ensures |r.trace| >= 1 && r.trace[0] == Acquire(options)
    ensures r.end.Returned?
    ensures Writer(options, w).Err? ==>
      && r.end == Returned(Some(Writer(options, w).error))
      && r.trace == [Acquire(options)]
    ensures Writer(options, w).Ok? ==>
      var f := Writer(options, w).value;
      var body := ExportAndFinish(nameOrId, options, w, f, Acquired(w.fs, f));
      && r.end.err == body.err
      && |r.trace| == 1 + |body.trace| + (if IsDirFormat(options.format) then 1 else 0)
      && r.trace[1..1 + |body.trace|] == body.trace
      && (IsDirFormat(options.format) ==> r.trace[|r.trace| - 1] == Remove(f))
  {
    Saving(nameOrId, options, w, true)
  }

  /** The two differ only where the reopen fails. */
  lemma CorrectedAgreesElsewhere(nameOrId: string, options: SaveOptions, w: World)
    ensures !ReopenFails(options, w) ==> Save(nameOrId, options, w) == SaveCorrected(nameOrId, options, w)
    ensures ReopenFails(options, w) ==> Save(nameOrId, options, w) != SaveCorrected(nameOrId, options, w)
  {
  }

  /** The finding on Save as written: a directory-format save whose reopen
      of the temporary archive fails panics instead of returning the reopen
      error, never removes the archive, and leaves it on the filesystem. */
  lemma ReopenFailureLosesArchive(nameOrId: string, options: SaveOptions, w: World)
    requires ReopenFails(options, w)
    ensures var r := Save(nameOrId, options, w);
      && r.end == Panicked
      && Remove(w.tempFile.value) !in r.trace
      && w.tempFile.value in r.fs
  {
    var f := w.tempFile.value;
    var x := Extract(options, w, f, Acquired(w.fs, f));
    var r := Save(nameOrId, options, w);
    assert r.trace == [MakeTemp(TempPrefix), ExportCall(nameOrId, f, options.format, options.compress), Close(f),
                       Open(f, false)];
  }

  /** For a file format, the writer is the output itself: a clean export and
      close return nil with no stat, mkdir or extraction, and the output is
      a regular file when it was absent or already one; an existing node of
      another kind keeps its kind. */
  lemma FileFormatWritesOutput(nameOrId: string, options: SaveOptions, w: World)
    requires !IsDirFormat(options.format)
    requires w.create.None? && w.exported.None? && w.close.None?
    ensures var r := Save(nameOrId, options, w);
      && r.end == Returned(None)
      && r.trace == [Create(options.output),
                     ExportCall(nameOrId, options.output, options.format, options.compress),
                     Close(options.output)]
      && options.output in r.fs
      && (options.output !in w.fs || w.fs[options.output] == RegularFile ==> r.fs[options.output] == RegularFile)
      && (options.output in w.fs ==> r.fs == w.fs)
  {
    var r := Save(nameOrId, options, w);
    assert r.trace == [r.trace[0]] + r.trace[1..3];
  }

  /** The close error wins: whenever the written file fails to close, that
      error is what Save returns, whatever the export did, and nothing past
      the close happens except the temporary archive's removal. */
  lemma CloseErrorWins(nameOrId: string, options: SaveOptions, w: World)
    requires Writer(options, w).Ok? && w.close.Some?
    ensures var r := Save(nameOrId, options, w);
      var f := Writer(options, w).value;
      && r.end == Returned(w.close)
      && r.trace[1] == ExportCall(nameOrId, f, options.format, options.compress)
      && r.trace[2] == Close(f)
      && |r.trace| == (if IsDirFormat(options.format) then 4 else 3)
      && (IsDirFormat(options.format) ==> r.trace[3] == Remove(f))
  {
  }

  /** After a clean export and close, a directory-format save is the
      finalisation of the temporary archive, bracketed by the export and the
      archive's removal, and returns the finalisation's error; when the
      finalisation stops at a failed reopen, Save panics and the removal is
      missing. */
  lemma DirectorySaveRunsExtract(nameOrId: string, options: SaveOptions, w: World)
    requires IsDirFormat(options.format) && w.tempFile.Ok?
    requires w.exported.None? && w.close.None?
    ensures var r := Save(nameOrId, options, w);
      var f := w.tempFile.value;
      var x := Extract(options, w, f, Acquired(w.fs, f));
      var head := [MakeTemp(TempPrefix), ExportCall(nameOrId, f, options.format, options.compress), Close(f)];
      && (w.reopen.None? ==> r.end == Returned(x.err) && r.trace == head + x.trace + [Remove(f)])
      && (w.reopen.None? ==> r.fs == if w.remove.None? then x.fs - {f} else x.fs)
      && (w.reopen.Some? ==> r.end == Panicked && r.trace == head + x.trace)
  {
    var f := w.tempFile.value;
    var fs := Acquired(w.fs, f);
    var x := Extract(options, w, f, fs);
    var written := [ExportCall(nameOrId, f, options.format, options.compress), Close(f)];
    var body := SaveRun(x.err, written + x.trace, x.fs);
    assert ExportAndFinish(nameOrId, options, w, f, fs) == body;
    assert Save(nameOrId, options, w) == Unwind(options, w, f, body, ReopenFails(options, w));
    assert [MakeTemp(TempPrefix)] + (written + x.trace)
        == [MakeTemp(TempPrefix), ExportCall(nameOrId, f, options.format, options.compress), Close(f)] + x.trace;
  }

  /** A directory-format save whose output does not exist creates it with
      mode 0755, extracts into it, removes its temporary archive last, and
      leaves the output a directory. */
  lemma MissingOutputCreated(nameOrId: string, options: SaveOptions, w: World)
    requires IsDirFormat(options.format) && w.tempFile.Ok? && w.tempFile.value != options.output
    requires w.exported.None? && w.close.None? && w.reopen.None? && w.stat.None? && w.mkdir.None?
    requires options.output !in w.fs
    ensures var r := Save(nameOrId, options, w);
      var f := w.tempFile.value;
      && r.end == Returned(w.untar)
      && r.trace == [MakeTemp(TempPrefix), ExportCall(nameOrId, f, options.format, options.compress), Close(f)]
                    + [Open(f, true), Stat(options.output), Mkdir(options.output, DirMode), Untar(options.output, f)]
                    + [Remove(f)]
      && options.output in r.fs && r.fs[options.output] == Directory
  {
    var f := w.tempFile.value;
    var fs := Acquired(w.fs, f);
    DirectorySaveRunsExtract(nameOrId, options, w);
    ExtractIntoMissing(options, w, f, fs);
    var made := fs[options.output := Directory];
    assert options.output in made && made[options.output] == Directory;
    assert options.output in made - {f} && (made - {f})[options.output] == Directory;
  }

  /** Extraction into a missing output creates the directory and then
      unpacks into it. */
  lemma ExtractIntoMissing(options: SaveOptions, w: World, archive: string, fs: FileSystem)
    requires w.reopen.None? && w.stat.None? && w.mkdir.None? && options.output !in fs
    ensures var x := Extract(options, w, archive, fs);
      && x.err == w.untar
      && x.trace == [Open(archive, true), Stat(options.output), Mkdir(options.output, DirMode),
                     Untar(options.output, archive)]
      && x.fs == fs[options.output := Directory]
  {
  }

  /** A directory-format save that finds a regular file at the output
      reports it, never runs mkdir or extraction, and removes its temporary
      archive last. */
  lemma RegularFileRefused(nameOrId: string, options: SaveOptions, w: World)
    requires IsDirFormat(options.format) && w.tempFile.Ok? && w.tempFile.value != options.output
    requires w.exported.None? && w.close.None? && w.reopen.None? && w.stat.None?
    requires options.output in w.fs && w.fs[options.output] == RegularFile
    ensures var r := Save(nameOrId, options, w);
      var f := w.tempFile.value;
      && r.end == Returned(Some(RegularFileExists(options.output)))
      && r.trace == [MakeTemp(TempPrefix), ExportCall(nameOrId, f, options.format, options.compress), Close(f)]
                    + [Open(f, true), Stat(options.output)]
                    + [Remove(f)]
  {
    var f := w.tempFile.value;
    DirectorySaveRunsExtract(nameOrId, options, w);
    assert StatOf(w, Acquired(w.fs, f), options.output) == Found(RegularFile);
  }

  /** Temporary-file hygiene, the intended behaviour: once the temporary
      archive exists, its removal is the last event of every path, the
      reopen error included, and when the removal succeeds the archive is
      gone from the final filesystem; without one, nothing is removed. */
  lemma TempArchiveAlwaysRemoved(nameOrId: string, options: SaveOptions, w: World)
    requires IsDirFormat(options.format)
    ensures var r := SaveCorrected(nameOrId, options, w);
      && (w.tempFile.Ok? ==>
            && r.trace[|r.trace| - 1] == Remove(w.tempFile.value)
            && (w.remove.None? ==> w.tempFile.value !in r.fs))
      && (ReopenFails(options, w) ==> r.end == Returned(w.reopen))
      && (w.tempFile.Err? ==> r.trace == [MakeTemp(TempPrefix)] && r.end == Returned(Some(w.tempFile.error)))
  {
  }
}

=== FILE: tag.dfy ===
/** Tag and Untag (images.go:103-151): each tag string is parsed into an
    optional tag and a repository name, an empty repository is rejected, and
    one binding call is issued per element; the first parse, validation or
    transport error ends the operation. */
module ImageTag {
  import opened Outcomes

  /** What the reference parser reports about a string: `tag` is present
      when the reference is Tagged, `name` when it is Named. */
  datatype ParsedRef = ParsedRef(tag: Option<string>, name: Option<string>)

  /** The image-reference parser, as an abstract collaborator. */
  type Parser = string -> Result<ParsedRef>

  /** Which binding an element is sent to. */
  datatype Verb = AddTag | RemoveTag

  datatype TagCall = TagCall(verb: Verb, nameOrId: string, tag: string, repo: string)

  /** The binding's reply to the n-th call of a run: `None` is Go's nil. */
  type TagBinding = (nat, TagCall) -> Option<Error>

  /** Whether a parsed reference carries a usable repository name. */
  predicate HasRepo(p: ParsedRef) {
    p.name.Some? && |p.name.value| >= 1
  }

  /** One element (lines 105-120 and 130-145): the call it asks for, or the
      error that stops the loop before any call for it. */
  function Prepare(verb: Verb, nameOrId: string, newTag: string, parse: Parser): Result<TagCall>
  {
    match parse(newTag)
    case Err(e) => Err(e)
    case Ok(ref) =>
      var tag := if ref.tag.Some? then ref.tag.value else "";
      var repo := if ref.name.Some? then ref.name.value else "";
      if |repo| < 1 then Err(InvalidImageName(nameOrId))
      else Ok(TagCall(verb, nameOrId, tag, repo))
  }

  /** Whether `call` is the call element `newTag` asks for. */
  predicate Prepared(verb: Verb, nameOrId: string, newTag: string, parse: Parser, call: TagCall) {
    Prepare(verb, nameOrId, newTag, parse) == Ok(call)
  }

  /** Whether element `j` goes through: it prepares a call, and the binding
      accepts it. Reaching element `j` means `j` calls were issued before. */
  predicate Passes(verb: Verb, nameOrId: string, tags: seq<string>, parse: Parser, send: TagBinding, j: nat)
    requires j < |tags|
  {
    var p := Prepare(verb, nameOrId, tags[j], parse);
    p.Ok? && send(j, p.value).None?
  }

  /** The error element `j` stops the run with. */
  function FailureAt(verb: Verb, nameOrId: string, tags: seq<string>, parse: Parser, send: TagBinding, j: nat): Error
    requires j < |tags| && !Passes(verb, nameOrId, tags, parse, send, j)
  {
    var p := Prepare(verb, nameOrId, tags[j], parse);
    if p.Err? then p.error else send(j, p.value).value
  }

  /** The index of the first element at or after `from` that does not go
      through. */
  function FirstFailure(verb: Verb, nameOrId: string, tags: seq<string>, parse: Parser, send: TagBinding,
                        from: nat): (k: Option<nat>)
    requires from <= |tags|
    ensures k.None? ==> forall j :: from <= j < |tags| ==> Passes(verb, nameOrId, tags, parse, send, j)
    ensures k.Some? ==>
      && from <= k.value < |tags| && !Passes(verb, nameOrId, tags, parse, send, k.value)
      && forall j :: from <= j < k.value ==> Passes(verb, nameOrId, tags, parse, send, j)
    decreases |tags| - from
  {
    if from == |tags| then None
    else if !Passes(verb, nameOrId, tags, parse, send, from) then Some(from)
    else FirstFailure(verb, nameOrId, tags, parse, send, from + 1)
  }

  /** What the loop promises from element `from` on: the calls are the
      prepared calls of the elements in order; with no failure every element
      is sent and nil is returned; otherwise the first failing element's
      error is returned, and that element is sent only when its failure is
      the binding's. */
  ghost predicate TagsInOrder(verb: Verb, nameOrId: string, tags: seq<string>, parse: Parser, send: TagBinding,
                              from: nat, r: Run<(), TagCall>)
    requires from <= |tags|
  {
    && from + |r.trace| <= |tags|
    && (forall j :: 0 <= j < |r.trace| ==> Prepared(verb, nameOrId, tags[from + j], parse, r.trace[j]))
    && match FirstFailure(verb, nameOrId, tags, parse, send, from)
       case None =>
         && |r.trace| == |tags| - from
         && r.result == Ok(())
       case Some(k) =>
         && |r.trace| == k - from + (if Prepare(verb, nameOrId, tags[k], parse).Ok? then 1 else 0)
         && r.result == Err(FailureAt(verb, nameOrId, tags, parse, send, k))
  }

  /** The loop of Tag and Untag from element `from` on. */
  function RetagFrom(verb: Verb, nameOrId: string, tags: seq<string>, parse: Parser, send: TagBinding,
                     from: nat): (r: Run<(), TagCall>)
    requires from <= |tags|
    ensures TagsInOrder(verb, nameOrId, tags, parse, send, from, r)
    decreases |tags| - from
  {
    if from == |tags| then Run(Ok(()), [])
    else match Prepare(verb, nameOrId, tags[from], parse)
      case Err(e) => Run(Err(e), [])
      case Ok(call) =>
        match send(from, call)
        case Some(e) => Run(Err(e), [call])
        case None =>
          var rest := RetagFrom(verb, nameOrId, tags, parse, send, from + 1);
          SentBefore(verb, nameOrId, tags, parse, send, from, rest);
          Run(rest.result, [call] + rest.trace)
  }

  /** One element that goes through followed by a conforming rest of the run
      makes a conforming run. */
  lemma SentBefore(verb: Verb, nameOrId: string, tags: seq<string>, parse: Parser, send: TagBinding,
                   from: nat, rest: Run<(), TagCall>)
    requires from < |tags| && Passes(verb, nameOrId, tags, parse, send, from)
    requires TagsInOrder(verb, nameOrId, tags, parse, send, from + 1, rest)
    ensures TagsInOrder(verb, nameOrId, tags, parse, send, from,
                        Run(rest.result, [Prepare(verb, nameOrId, tags[from], parse).value] + rest.trace))
  {
    var r := Run(rest.result, [Prepare(verb, nameOrId, tags[from], parse).value] + rest.trace);
    assert FirstFailure(verb, nameOrId, tags, parse, send, from) == FirstFailure(verb, nameOrId, tags, parse, send, from + 1);
    forall j | 0 <= j < |r.trace|
      ensures Prepared(verb, nameOrId, tags[from + j], parse, r.trace[j])
    {
      if j > 0 {
        assert r.trace[j] == rest.trace[j - 1];
        assert from + 1 + (j - 1) == from + j;
      }
    }
  }

  /** Tag (lines 103-126). */
  function Tag(nameOrId: string, tags: seq<string>, parse: Parser, send: TagBinding): (r: Run<(), TagCall>)
    ensures TagsInOrder(AddTag, nameOrId, tags, parse, send, 0, r)
    ensures forall j :: 0 <= j < |r.trace| ==> r.trace[j].verb == AddTag && r.trace[j].nameOrId == nameOrId
  {
    RetagFrom(AddTag, nameOrId, tags, parse, send, 0)
  }

  /** Untag (lines 128-151). */
  function Untag(nameOrId: string, tags: seq<string>, parse: Parser, send: TagBinding): (r: Run<(), TagCall>)
    ensures TagsInOrder(RemoveTag, nameOrId, tags, parse, send, 0, r)
    ensures forall j :: 0 <= j < |r.trace| ==> r.trace[j].verb == RemoveTag && r.trace[j].nameOrId == nameOrId
  {
    RetagFrom(RemoveTag, nameOrId, tags, parse, send, 0)
  }

  /** When every element parses with a non-empty repository and every call
      succeeds, exactly one call per element is issued, in order, carrying
      the parsed tag (or "" for an untagged reference) and the parsed name,
      and nil is returned. */
  lemma {:induction false} OneCallPerElement(verb: Verb, nameOrId: string, tags: seq<string>, parse: Parser,
                                             send: TagBinding)
    requires forall j :: 0 <= j < |tags| ==> parse(tags[j]).Ok? && HasRepo(parse(tags[j]).value)
    requires forall j :: 0 <= j < |tags| ==>
      send(j, TagCall(verb, nameOrId, parse(tags[j]).value.tag.GetOr(""), parse(tags[j]).value.name.GetOr(""))).None?
    ensures var r := RetagFrom(verb, nameOrId, tags, parse, send, 0);
      && r.result == Ok(())
      && |r.trace| == |tags|
      && forall j :: 0 <= j < |tags| ==>
           r.trace[j] == TagCall(verb, nameOrId, parse(tags[j]).value.tag.GetOr(""), parse(tags[j]).value.name.GetOr(""))
  {
    forall j | 0 <= j < |tags|
      ensures Passes(verb, nameOrId, tags, parse, send, j)
    {
      assert Prepare(verb, nameOrId, tags[j], parse).Ok?;
    }
    assert FirstFailure(verb, nameOrId, tags, parse, send, 0).None?;
  }

  /** An empty list issues no call and returns nil. */
  lemma NoTagsNoCalls(verb: Verb, nameOrId: string, parse: Parser, send: TagBinding)
    ensures RetagFrom(verb, nameOrId, [], parse, send, 0) == Run(Ok(()), [])
  {
  }

  /** A failure on element `k` ends the run there: the earlier elements were
      sent, element `k` is sent only when the binding is what failed, no
      later element is sent, and its error is returned. An empty repository
      is reported with `nameOrId`, not with the offending tag string. */
  lemma StopsAtFirstFailure(verb: Verb, nameOrId: string, tags: seq<string>, parse: Parser, send: TagBinding, k: nat)
    requires k < |tags| && !Passes(verb, nameOrId, tags, parse, send, k)
    requires forall j :: 0 <= j < k ==> Passes(verb, nameOrId, tags, parse, send, j)
    ensures var r := RetagFrom(verb, nameOrId, tags, parse, send, 0);
      var pk := parse(tags[k]);
      && (pk.Err? ==> r.result == Err(pk.error) && |r.trace| == k)
      && (pk.Ok? && !HasRepo(pk.value) ==> r.result == Err(InvalidImageName(nameOrId)) && |r.trace| == k)
      && (pk.Ok? && HasRepo(pk.value) ==>
            var call := Prepare(verb, nameOrId, tags[k], parse).value;
            r.result == Err(send(k, call).value) && |r.trace| == k + 1 && r.trace[k] == call)
  {
    var r := RetagFrom(verb, nameOrId, tags, parse, send, 0);
    var p := Prepare(verb, nameOrId, tags[k], parse);
    assert FirstFailure(verb, nameOrId, tags, parse, send, 0) == Some(k);
    assert r.result == Err(FailureAt(verb, nameOrId, tags, parse, send, k));
    if p.Ok? {
      assert |r.trace| == k + 1;
      assert r.trace[k] == Prepare(verb, nameOrId, tags[0 + k], parse).value;
    }
  }
}

=== FILE: transfer.dfy ===
/** Load (images.go:165-172) and Import (174-189): the choice of what the
    binding reads from, and the file handle that choice opens. */
module ImageTransfer {
  import opened Outcomes
  import opened Effects

  /** Opening a path for reading, as an abstract filesystem: nil or the
      error os.Open returns. */
  type Opener = string -> Option<Error>

  datatype LoadOptions = LoadOptions(input: string, name: string)

  /** Load (lines 165-172): the input file is opened first and an open error
      is returned before any binding call; otherwise the binding's reply is
      returned as it is, and the deferred close runs after the call. */
  function Load<R>(opts: LoadOptions, open: Opener, load: (string, string) -> Result<R>): (r: Run<R, Event>)
    ensures open(opts.input).Some? ==>
      && r.result == Err(open(opts.input).value)
      && r.trace == [Open(opts.input, false)]
    ensures open(opts.input).None? ==>
      && r.result == load(opts.input, opts.name)
      && r.trace == [Open(opts.input, true), LoadCall(opts.input, opts.name), Close(opts.input)]
    ensures Balanced(r.trace)
  {
    match open(opts.input)
    case Some(e) =>
      OpenUseClose(opts.input, LoadCall(opts.input, opts.name));
      Run(Err(e), [Open(opts.input, false)])
    case None =>
      OpenUseClose(opts.input, LoadCall(opts.input, opts.name));
      Run(load(opts.input, opts.name), [Open(opts.input, true), LoadCall(opts.input, opts.name), Close(opts.input)])
  }

  datatype ImportOptions = ImportOptions(source: string, sourceIsUrl: bool, changes: seq<string>,
                                         message: string, reference: string)

  /** The request Import sends when the source needs no opening, or once it
      is open. */
  function RequestFor(opts: ImportOptions): ImportRequest {
    if opts.sourceIsUrl then ImportRequest(opts.changes, opts.message, opts.reference, Some(opts.source), None)
    else ImportRequest(opts.changes, opts.message, opts.reference, None, Some(opts.source))
  }

  /** Import (lines 174-189): a URL source is passed to the binding and no
      file is opened; a file source is opened first, an open error is
      returned before any binding call, and the opened file is handed to the
      binding and never closed. */
  function Import<R>(opts: ImportOptions, open: Opener, importer: ImportRequest -> Result<R>): (r: Run<R, Event>)
    ensures opts.sourceIsUrl ==>
      && r.trace == [ImportCall(ImportRequest(opts.changes, opts.message, opts.reference, Some(opts.source), None))]
      && r.result == importer(r.trace[0].request)
    ensures !opts.sourceIsUrl && open(opts.source).Some? ==>
      && r.result == Err(open(opts.source).value)
      && r.trace == [Open(opts.source, false)]
    ensures !opts.sourceIsUrl && open(opts.source).None? ==>
      && r.trace == [Open(opts.source, true),
                     ImportCall(ImportRequest(opts.changes, opts.message, opts.reference, None, Some(opts.source)))]
      && r.result == importer(r.trace[1].request)
      && OpenHandles(r.trace) == multiset{opts.source}
  {
    if opts.sourceIsUrl then
      Run(importer(RequestFor(opts)), [ImportCall(RequestFor(opts))])
    else match open(opts.source)
      case Some(e) => Run(Err(e), [Open(opts.source, false)])
      case None =>
        OpenUseClose(opts.source, ImportCall(RequestFor(opts)));
        Run(importer(RequestFor(opts)), [Open(opts.source, true), ImportCall(RequestFor(opts))])
  }

  /** Of the two, only Load releases the file it opens: a Load trace is
      always balanced, while an Import that opened its source leaves exactly
      that handle open. */
  lemma LoadClosesImportLeaks<R>(load: LoadOptions, iopts: ImportOptions, open: Opener,
                                 loadFn: (string, string) -> Result<R>, importFn: ImportRequest -> Result<R>)
    requires !iopts.sourceIsUrl && open(iopts.source).None?
    ensures Balanced(Load(load, open, loadFn).trace)
    ensures !Balanced(Import(iopts, open, importFn).trace)
  {
  }
}
